=== FILE: README.md ===
# Afterfire signal-to-effect engine, in Dafny

This project models the core of the afterfire firmware (`src/main.cpp`), an
ESP32 sketch that reads a radio-control throttle pulse and drives an LED
"exhaust flame". The modelled core covers:

- the throttle mapper, which turns a pulse width and five calibration
  breakpoints into a percentage in [-100, 100];
- the guided calibration (`start`, then neutral, throttle and brake
  captures);
- the four effect detectors: RPM flicker, backfire, brake crackle and idle
  burble;
- the non-blocking burst scheduler (`handleBurst`);
- the heat-to-RGB flame model (`setFlame`).

The firmware keeps its state in globals. Here those globals form one
immutable record, `Engine.State`. One pass of `loop` is the pure function
`Engine.Tick`, and each web endpoint that changes the engine is its own
function. The pulse width, `millis()` and every `random(lo, hi)` draw are
inputs.

Modules, one per component:

| module | what it holds |
|---|---|
| `Arduino` | the `uint16_t` and `unsigned long` types; C truncating division `CDiv`; Arduino `map`, `constrain` and `random` |
| `Flame` | `setFlame`'s colour model and the LED picture |
| `Throttle` | the breakpoints and the pulse-to-percent mapping |
| `Calibration` | the step enum and the start/capture handlers |
| `Burst` | the burst state, the scheduler step, and runs of several steps |
| `Effects` | the effect settings and the four detectors |
| `Engine` | the state record, the loop pass, the endpoints and persistence |

Modelling choices:

- **C arithmetic.** Dafny's `/` is Euclidean, so `map` uses `Arduino.CDiv`,
  which truncates toward zero. `NEUTRAL_MIN`/`NEUTRAL_MAX` are computed
  modulo 2^16, the elapsed burst time modulo 2^32, and stored thresholds
  modulo 2^16 as `int16_t`.
- **Random draws.** Each draw is an arbitrary natural `u`, folded into the
  range as `lo + u % (hi - lo)`. `Arduino.RandomCoversRange` shows that every
  value in the range is still reachable.
- **`map` with an empty input range.** The Arduino core library decides what
  this returns, and that library is not part of this model. `Throttle.Mappable`
  excludes the case for the breakpoints, and `Engine.Tick` requires it on
  the idle passes, the only ones that call `map`. The detectors never reach
  the case: their guard `prev > threshold` with `prev <= 100` keeps `map`'s
  input range `threshold..100` non-empty.
- **Fading.** FastLED's `fadeToBlackBy` is kept as the symbolic picture
  `Faded(before, amount)`.

Behaviour of the code worth knowing:

- **Backfire burst size.** The burst length and intensity use truncating
  `map`, not rounding. A release from 65% gives 5 flashes at 217
  (`Effects.BackfireTruncates`).
- **Stale previous pulse after calibration.** The capturing and green
  passes return before `prevPulse` is updated, so the first idle pass after
  a new calibration compares the pulse from before the calibration with
  the new breakpoints. A pulse of 1700 (braking at -49% under the factory
  breakpoints) before calibrating to neutral 1500, throttle 1700 and brake
  1000 reads as full throttle, and returning to
  neutral then arms a full backfire (`Engine.StalePulseAfterCalibration`).
- **Stored thresholds.** The settings record holds the thresholds in
  `int16_t` fields; `Engine.StoredConfig` is the effect settings restricted
  to that range, so no loaded record carries a threshold outside it.
- **Threshold endpoint.** `/api/threshold` sets only three thresholds
  (`backfireMin`, `backfireMax`, `rpmThreshold`). The brake-crackle
  thresholds cannot be changed at run time.
- **Empty `map` range.** The code passes a degenerate branch straight to
  `map`, whose result then comes from the core library, so the model leaves
  it out (see above).
- **Brake side rounding.** Truncation toward zero rounds the brake side
  toward -100 and the throttle side toward 0. Every pulse below the dead
  zone reads at most -1, while a pulse just above it can read 0
  (`Throttle.PercentNegativeIffBelowDeadZone`).

## Model

| member | source | states |
|---|---|---|
| Arduino.CDiv | src/main.cpp:757-760 | the quotient `map` uses truncates toward zero: the remainder is smaller than the divisor in magnitude and is zero or has the dividend's sign |
| Arduino.CDivUnique | src/main.cpp:757-760 | any quotient meeting C's remainder conditions is the one `CDiv` computes, so truncating division is determined by those conditions alone |
| Arduino.CDivMonotone | src/main.cpp:760 | with a positive divisor, truncating division is monotone in the numerator, across zero |
| Arduino.Map | src/main.cpp:757 | `map` sends `inMin` to `outMin` and `inMax` to `outMax` |
| Arduino.MapMonotone | src/main.cpp:757-760 | on increasing ranges `map` never decreases |
| Arduino.MapWithin | src/main.cpp:851-852 | inside the input range `map` stays inside the output range |
| Arduino.Constrain | src/main.cpp:762 | `constrain` clamps into `[lo, hi]` and leaves in-range values alone |
| Arduino.Random | src/main.cpp:826 | `random(lo, hi)` yields a value in `[lo, hi-1]` |
| Arduino.RandomCoversRange | src/main.cpp:826 | every value of the range is the result of some draw |
| Arduino.WrapU16 | src/main.cpp:1550-1551 | storing into `uint16_t` keeps in-range values and is congruent modulo 2^16 |
| Arduino.WrapI16 | src/main.cpp:198-202 | storing into `int16_t` keeps the value exactly when it fits and is congruent modulo 2^16 otherwise |
| Flame.HeatColour | src/main.cpp:939-953 | the flame colour keeps red >= green >= blue; red is 255 exactly from heat 120, green exactly from 200, blue is lit exactly above 200, and heat <= 0 is black |
| Flame.SetFlame | src/main.cpp:939-958 | `setFlame` paints a lit flame-palette colour |
| Flame.HeatColourMonotone | src/main.cpp:941-953 | no channel gets darker as heat rises |
| Flame.HeatColourInjective | src/main.cpp:945-953 | distinct heats in [0,255] give distinct colours |
| Flame.HeatColourClamps | src/main.cpp:941 | heat below 0 or above 255 paints the colour of the nearest bound |
| Flame.HeatColourBoundaries | src/main.cpp:945-953 | heat 0, 119, 120, 199, 200, 255 give (0,0,0), (119,29,0), (255,120,0), (255,199,0), (255,255,0), (255,255,55) |
| Throttle.Percent | src/main.cpp:751-772 | the throttle is always in [-100,100] and is 0 for every pulse in `[NEUTRAL_MIN, NEUTRAL_MAX]`; current and previous pulse use this one function |
| Throttle.ForwardNonNegative | src/main.cpp:755-757 | under ordered breakpoints, every pulse above the dead zone maps to at least 0 |
| Throttle.BrakeNegative | src/main.cpp:758-760 | under ordered breakpoints, every pulse below the dead zone maps to at most -1 |
| Throttle.PercentMonotone | src/main.cpp:751-762 | under `MIN_PULSE < NEUTRAL_MIN <= NEUTRAL_MAX < MAX_PULSE` the throttle is non-decreasing in the pulse |
| Throttle.PercentEndpoints | src/main.cpp:751-762 | under ordered breakpoints, `MAX_PULSE` and anything above give 100, and `MIN_PULSE` and anything below give -100 |
| Throttle.PercentNegativeIffBelowDeadZone | src/main.cpp:753-762 | under ordered breakpoints, the throttle is negative if and only if the pulse is below `NEUTRAL_MIN` |
| Throttle.DefaultsExamples | src/main.cpp:93-97 | the default breakpoints are ordered; 1916 gives 0, 2000 gives 100, 1496 and 1400 give -100, 1500 gives -99 |
| Calibration.Start | src/main.cpp:1536-1543 | `start` enters `CAL_NEUTRAL` from any step and keeps the breakpoints |
| Calibration.CaptureNeutral | src/main.cpp:1546-1561 | succeeds exactly in `CAL_NEUTRAL` and advances one step; sets `NEUTRAL_PULSE = p` and the dead zone to p-25..p+25 (wrapping for extreme p), leaves min/max alone; in any other step changes nothing; never saves |
| Calibration.CaptureThrottle | src/main.cpp:1564-1582 | succeeds exactly in `CAL_THROTTLE`, advances one step and changes only `MAX_PULSE`; otherwise changes nothing |
| Calibration.CaptureBrake | src/main.cpp:1585-1608 | succeeds exactly in `CAL_BRAKE`, changes only `MIN_PULSE`, reaches `CAL_COMPLETE` and saves; otherwise changes nothing and does not save |
| Calibration.GuidedSequence | src/main.cpp:1536-1601 | start plus the three captures yield `(n-25, n+25, b, t, n)`, save once at the end, and that calibration is ordered if and only if `b < n-25` and `n+25 < t` |
| Calibration.OutOfOrderCapture | src/main.cpp:1564-1608 | a throttle or brake capture right after `start` fails and leaves the sequence waiting for neutral |
| Calibration.NeutralWrapExample | src/main.cpp:1550-1551 | capturing neutral at 10 wraps `NEUTRAL_MIN` to 65521, so the dead zone is empty |
| Burst.Elapsed | src/main.cpp:884 | `millis() - lastEffectTime` is the plain difference, or that difference plus 2^32 across a roll-over |
| Burst.ElapsedAcrossRollover | src/main.cpp:884 | d milliseconds after `since` the elapsed time reads d even across the 2^32 roll-over |
| Burst.FlashColour | src/main.cpp:889-904 | each flash lies in the channel ranges of the family its category draw selects |
| Burst.FlashColourCovers | src/main.cpp:889-904 | every colour of every family is the flash of some draws |
| Burst.BurstStep | src/main.cpp:880-918 | a step that is inactive or not yet due changes nothing; a due step with count > 0 flashes and takes exactly one off the count; a due step at count 0 ends the burst with black |
| Burst.QuietStaysQuiet | src/main.cpp:882 | without an active burst any run of scheduler steps changes nothing and fires nothing |
| Burst.BurstDrains | src/main.cpp:880-918 | a burst armed with count N >= 0 is active through N firing steps and inactive, LEDs black, after exactly N+1 |
| Effects.FlickerHeat | src/main.cpp:825-828 | RPM flicker always passes `setFlame` a heat in [80,255], at most 40 below its base heat |
| Effects.FlickerHeatMonotone | src/main.cpp:825-828 | for the same jitter, more throttle never gives less heat |
| Effects.FlickerBaseHeat | src/main.cpp:825 | the base heat of a flicker lies in [120,255] |
| Effects.RpmFlicker | src/main.cpp:819-833 | disabled or during a burst it changes nothing; above the threshold it paints a flame with red >= 80; otherwise it fades by 40 |
| Effects.DetectBackfire | src/main.cpp:839-855 | when enabled and prev > arm threshold and now < release threshold, it arms a burst with count in [3,8] and intensity in [180,255] starting now; otherwise it changes nothing |
| Effects.BackfireOverwrites | src/main.cpp:850-853 | the burst a backfire arms does not depend on the burst it replaces |
| Effects.BackfireGrowsWithThrottle | src/main.cpp:851-852 | a release from higher throttle never arms a shorter or weaker burst |
| Effects.BackfireTruncates | src/main.cpp:851-852 | with defaults, release from 65% arms 5 flashes at 217, and from 100% arms 8 at 255 |
| Effects.DetectBrakeCrackle | src/main.cpp:861-874 | it never arms while a burst is active; when it arms, the count is in [3,6] and the intensity in [160,229] |
| Effects.CrackleYieldsToBackfire | src/main.cpp:799-800 | on a pass where backfire arms, or a burst is already running, brake crackle changes nothing |
| Effects.BurbleCovers | src/main.cpp:924-933 | once the other gates are open, every heat of `random(100, 160)` is the flash some draws produce, so folding the draws loses no burble |
| Effects.BurbleOdds | src/main.cpp:929 | once enabled, idle and burst-free, a burble fires for exactly the draws below 4 modulo 1000, so 4 of every 1000 consecutive draws |
| Effects.IdleBurble | src/main.cpp:924-933 | it flashes only when enabled, no burst runs, the throttle is within ±4 and the 4-in-1000 roll comes up; the flash is a flame colour with red >= 100 and no blue |
| Engine.Snapshot | src/main.cpp:184-202 | the saved record carries the breakpoints and toggles unchanged; each threshold is stored congruent to the runtime value modulo 2^16 inside the `int16_t` range, and equal to it when every threshold fits |
| Engine.Load | src/main.cpp:153-182 | a vouched record replaces breakpoints, toggles and thresholds and nothing else; without one the state is kept |
| Engine.SaveLoadRoundTrip | src/main.cpp:153-202 | save then load restores the breakpoints always, and the effect settings if and only if every threshold fits in `int16_t` |
| Engine.Boot | src/main.cpp:85-110 | boot starts idle with no burst and `prevPulse` 1500, and with no stored settings it uses the defaults |
| Engine.Tick | src/main.cpp:733-812 | a pass never changes settings and needs a non-empty `map` range only when idle; while capturing it only turns the LEDs blue (no detector, no burst step, `prevPulse` kept); in `CAL_COMPLETE` it shows green and returns to `CAL_IDLE`; when idle `prevPulse` takes the pulse |
| Engine.RunEffects | src/main.cpp:798-807 | a pass ending with no burst while RPM flicker and idle burble are both off closes with a fade of 50/255 |
| Engine.AllOffOnlyFades | src/main.cpp:798-807 | with all four effects off and no burst running, the detectors and scheduler change nothing and the pass only fades the LEDs by 50/255 |
| Engine.EffectsArmBackfire | src/main.cpp:798-802 | when backfire fires, the detectors and scheduler of the pass end with exactly the burst backfire armed (count in [3,8], intensity in [180,255], stamped now), so crackle, burble and the scheduler leave it unflashed |
| Engine.TickArmsBackfire | src/main.cpp:798-802 | a pass on which backfire fires ends with that burst armed, count in [3,8] and intensity in [180,255], exactly the burst backfire arms, so not yet flashed |
| Engine.ActiveBurstOnlyScheduled | src/main.cpp:798-802 | while a burst runs and backfire does not fire, only the scheduler moves the burst on |
| Engine.ReleaseFromFullThrottleBackfires | src/main.cpp:751-855 | from boot defaults, pulses 1916, 2000, 1900 leave a burst of 8 flashes at 255 armed on the third pass, for any clock and draws |
| Engine.ApiStart | src/main.cpp:1536-1543 | the start endpoint moves to `CAL_NEUTRAL` and touches nothing else |
| Engine.Respond | src/main.cpp:1598-1601 | a capture endpoint saves a snapshot of the new state exactly when the capture asks to |
| Engine.ApiCaptureNeutral | src/main.cpp:1546-1561 | the neutral endpoint succeeds exactly in `CAL_NEUTRAL`, never saves, changes nothing on failure, and on success changes only the calibration, to what `CaptureNeutral` gives (pulse±25 in `uint16_t`) |
| Engine.ApiCaptureThrottle | src/main.cpp:1564-1582 | the throttle endpoint succeeds exactly in `CAL_THROTTLE`, sets only `MAX_PULSE`, never saves |
| Engine.ApiCaptureBrake | src/main.cpp:1585-1608 | the brake endpoint succeeds exactly in `CAL_BRAKE`, completes, changes only the calibration, and saves a snapshot of exactly the new state |
| Engine.CalibrationThenLoop | src/main.cpp:742-749 | after a full ordered calibration the next pass shows green, returns to idle and keeps `prevPulse`, and the pass after that runs the loop and stores its pulse |
| Engine.StalePulseAfterCalibration | src/main.cpp:733-802 | `prevPulse` stays frozen through calibration and the green pass, so the first idle pass compares the pre-calibration pulse against the new breakpoints: 1700, which read as -49% braking under the factory breakpoints, now reads as full throttle, and a return to neutral arms a full backfire |
| Engine.CaptureOntoMaxPulseStaysBlue | src/main.cpp:733-739 | a neutral capture at 1975 on the defaults leaves `NEUTRAL_MAX` equal to `MAX_PULSE`, and the pass awaiting the throttle capture is still defined and only shows blue |
| Engine.ApiTestBackfire | src/main.cpp:1502-1509 | the test endpoint arms 5 flashes at 240 starting now, replacing any burst, and touches nothing else |
| Engine.ApiTestCrackle | src/main.cpp:1512-1519 | the test endpoint arms 6 flashes at 200 starting now, replacing any burst, and touches nothing else |
| Engine.TestBackfireDrains | src/main.cpp:1502-1509 | the test backfire ends, LEDs black, after exactly six firing steps |
| Engine.ApiSetEffect | src/main.cpp:1623-1630 | an effect toggle changes only that effect's flag and saves |
| Engine.ApiThreshold | src/main.cpp:1633-1653 | the threshold endpoint sets the named one of three thresholds and saves whenever both arguments are present; brake thresholds and toggles never change; without arguments nothing happens |

## Left out

- The dashboard HTML/JavaScript, HTTP routing, JSON building, the WiFi scan,
  the credential parser and the status and results endpoints: these are
  web/UI plumbing. The status endpoint's throttle (src/main.cpp:1470-1479)
  is the same computation as `Throttle.Percent`.
- WiFi station and access-point setup, OTA, serial logging, `setup`, the
  boot LED sequence, `FastLED.show` and `delay`: network, I/O and timing.
- The interrupt handler and the `volatile` pulse capture: concurrency. The
  pulse is a per-pass input, and the capture endpoints take the live pulse
  as an argument.
- EEPROM layout, version byte and CRC: persistence is an abstract record
  copy (`Engine.Snapshot`, `Engine.Load`), and a record counts as valid when
  the storage layer returns it. The CRC runs from byte offset 5 of the
  settings struct. With natural alignment, that offset falls inside the
  4-byte `crc` field itself (offset 4..7), so the checksum covers part of
  the field it is stored in. This looks like a defect, but it depends on
  compiler layout, so it is not modelled.
- WiFi credentials in the settings record, and the `calibratedNeutral`,
  `calibratedThrottle` and `calibratedBrake` globals: they only echo the
  captured value, which is the `Captured` reply.
- The RNG: each `random` draw is an input. The clock: one `millis()` value
  per loop pass, although the firmware reads the clock again inside a pass.
- FastLED's `fadeToBlackBy` channel arithmetic: kept symbolic as `Faded`.
  The exact named-colour values `Blue` (0,0,255) and `Green` (0,128,0) come
  from FastLED, which is not part of this model.
- Arduino `map` with an empty input range: the core library decides it.
  `Throttle.Percent` requires `Throttle.Mappable`, and `Engine.Tick`
  requires it only on idle passes, so an idle pass after a calibration whose
  throttle capture equals `NEUTRAL_MAX`, or whose brake capture equals
  `NEUTRAL_MIN`, is outside the model. Passes while capturing or in
  `CAL_COMPLETE` call no `map` and are modelled for any breakpoints.
- Engine.Tick: the thresholds are mathematical integers. The firmware's
  `map` multiplies in 32-bit `long`, which would overflow only for
  thresholds beyond about ±15 million; that overflow is not modelled.
- `burstIntensity` is stored but never read by the scheduler. The model
  keeps the field and proves the scheduler leaves it unchanged.

=== FILE: arduino.dfy ===
/** The Arduino runtime helpers the engine calls (`map`, `constrain`,
    `random`, `abs`) and the fixed-width C integer types it stores values in,
    with C's integer semantics written out: Dafny's `/` is Euclidean and its
    integers are unbounded, C's `/` truncates toward zero and its unsigned
    types wrap. */
module Arduino {

  /** `uint16_t`: pulse widths and calibration breakpoints. */
  type U16 = x: int | 0 <= x < 0x1_0000

  /** `unsigned long` on the ESP32 (32 bits): `millis()` timestamps. */
  type U32 = x: int | 0 <= x < 0x1_0000_0000

  /** One 8-bit colour channel of a `CRGB`. */
  type Byte = x: int | 0 <= x < 0x100

  function Abs(x: int): (r: nat)
    ensures r == x || r == -x
  {
    if x < 0 then -x else x
  }

  /** Storing an integer into a `uint16_t`: reduction modulo 2^16. */
  function WrapU16(x: int): (r: U16)
    ensures (x - r) % 0x1_0000 == 0
    ensures 0 <= x < 0x1_0000 ==> r == x
  {
    x % 0x1_0000
  }

  /** `unsigned long` arithmetic: reduction modulo 2^32. */
  function WrapU32(x: int): (r: U32)
    ensures (x - r) % 0x1_0000_0000 == 0
    ensures 0 <= x < 0x1_0000_0000 ==> r == x
  {
    x % 0x1_0000_0000
  }

  /** Storing an integer into an `int16_t` (two's complement, modular). */
  function WrapI16(x: int): (r: int)
    ensures -0x8000 <= r < 0x8000
    ensures (x - r) % 0x1_0000 == 0
    ensures -0x8000 <= x < 0x8000 <==> r == x
  {
    (x + 0x8000) % 0x1_0000 - 0x8000
  }

  /** C's `/` on signed integers: the quotient truncated toward zero, so the
      remainder `n - q * d` is smaller than `d` in magnitude and is zero or
      has the sign of `n` (C11 section 6.5.5). */
  function CDiv(n: int, d: int): (q: int)
    requires d != 0
    ensures Abs(n - q * d) < Abs(d)
    ensures n - q * d == 0 || (n - q * d > 0 <==> n > 0)
  {
    TruncDivRemainder(n, d);
    TruncDiv(n, d)
  }

  /** Truncating division of either divisor sign, through the magnitude of
      a negative divisor. */
  function TruncDiv(n: int, d: int): int
    requires d != 0
  {
    if d > 0 then TruncQuotient(n, d) else TruncQuotient(-n, -d)
  }

  lemma TruncDivRemainder(n: int, d: int)
    requires d != 0
    ensures Abs(n - TruncDiv(n, d) * d) < Abs(d)
    ensures n - TruncDiv(n, d) * d == 0 || (n - TruncDiv(n, d) * d > 0 <==> n > 0)
  {
    if d > 0 {
      TruncRemainder(n, d);
      PositiveRemainder(n, d, TruncDiv(n, d));
    } else {
      TruncRemainder(-n, -d);
      NegateRemainder(n, d, TruncDiv(n, d));
    }
  }

  /** The remainder conditions, restated with `Abs`, for a positive `d`. */
  lemma PositiveRemainder(n: int, d: int, q: int)
    requires d > 0
    requires -d < n - q * d < d
    requires n >= 0 ==> n - q * d >= 0
    requires n < 0 ==> n - q * d <= 0
    ensures Abs(n - q * d) < Abs(d)
    ensures n - q * d == 0 || (n - q * d > 0 <==> n > 0)
  {
  }

  /** The remainder conditions for `-n` and `-d` carry over to `n` and
      `d` with the same quotient. */
  lemma NegateRemainder(n: int, d: int, q: int)
    requires d < 0
    requires -(-d) < (-n) - q * (-d) < -d
    requires (-n) >= 0 ==> (-n) - q * (-d) >= 0
    requires (-n) < 0 ==> (-n) - q * (-d) <= 0
    ensures Abs(n - q * d) < Abs(d)
    ensures n - q * d == 0 || (n - q * d > 0 <==> n > 0)
  {
    assert q * (-d) == -(q * d);
  }

  /** Truncating division by a positive divisor, from Euclidean division
      of the magnitude. */
  function TruncQuotient(n: int, d: int): int
    requires d > 0
  {
    if n >= 0 then n / d else -((-n) / d)
  }

  lemma TruncRemainder(n: int, d: int)
    requires d > 0
    ensures -d < n - TruncQuotient(n, d) * d < d
    ensures n >= 0 ==> n - TruncQuotient(n, d) * d >= 0
    ensures n < 0 ==> n - TruncQuotient(n, d) * d <= 0
  {
    if n >= 0 {
      var q := n / d;
      assert n == d * q + n % d;
    } else {
      var m := -n;
      var q := m / d;
      assert m == d * q + m % d;
      assert n - (-q) * d == -(m - q * d);
    }
  }

  /** C's remainder conditions determine the quotient: any `q` whose
      remainder is smaller than the divisor in magnitude and is zero or has
      the dividend's sign is the truncating quotient. */
  lemma CDivUnique(n: int, d: int, q: int)
    requires d != 0
    requires Abs(n - q * d) < Abs(d)
    requires n - q * d == 0 || (n - q * d > 0 <==> n > 0)
    ensures q == CDiv(n, d)
  {
    var q0 := CDiv(n, d);
    MulSubDistributes(q0, q, d);
    if d > 0 {
      MulBounded(q0 - q, d);
    } else {
      MulNegNeg(q0 - q, d);
      MulBounded(q - q0, -d);
    }
  }

  lemma MulSubDistributes(a: int, b: int, d: int)
    ensures (a - b) * d == a * d - b * d
  {
  }

  lemma MulNegNeg(k: int, d: int)
    ensures (-k) * (-d) == k * d
  {
  }

  /** A multiple of a positive `b` that is smaller than `b` in magnitude is
      zero. */
  lemma MulBounded(k: int, b: int)
    requires b > 0 && -b < k * b < b
    ensures k == 0
  {
    if k >= 1 {
      MulMonotone(1, k, b);
    } else if k <= -1 {
      MulMonotone(k, -1, b);
    }
  }

  /** An exact multiple divides back exactly. */
  lemma CDivExact(k: int, d: int)
    requires d != 0
    ensures CDiv(k * d, d) == k
  {
    if d > 0 {
      TruncExact(k, d);
    } else {
      assert -(k * d) == k * (-d);
      TruncExact(k, -d);
    }
  }

  lemma TruncExact(k: int, d: int)
    requires d > 0
    ensures TruncQuotient(k * d, d) == k
  {
    if k >= 0 {
      EuclidExact(k, d);
    } else {
      assert -(k * d) == (-k) * d;
      EuclidExact(-k, d);
    }
  }

  lemma EuclidExact(m: int, d: int)
    requires m >= 0 && d > 0
    ensures (m * d) / d == m
  {
    EuclidUnique(m * d, d, m);
  }

  /** Euclidean division is determined by the bracket `q * d <= a < q * d + d`. */
  lemma EuclidUnique(a: int, d: int, q: int)
    requires d > 0 && q * d <= a < q * d + d
    ensures a / d == q
  {
    var q0 := a / d;
    assert a == d * q0 + a % d;
    assert (q0 - q) * d == a - q * d - a % d;
    MulBounded(q0 - q, d);
  }

  /** Euclidean division of a non-negative numerator is monotone. */
  lemma DivMonotone(x: int, y: int, d: int)
    requires 0 <= x <= y && d > 0
    ensures x / d <= y / d
  {
    var qx, qy := x / d, y / d;
    assert d * qx <= x;
    assert y < d * qy + d;
    assert d * qx < d * (qy + 1);
    if qx > qy {
      MulMonotone(qy + 1, qx, d);
    }
  }

  lemma MulMonotone(a: int, b: int, c: int)
    requires a <= b && c >= 0
    ensures a * c <= b * c
  {
    assert b * c - a * c == (b - a) * c;
  }

  /** With a positive divisor, truncating division is monotone in the
      numerator, on both sides of zero. */
  lemma CDivMonotone(a: int, b: int, d: int)
    requires a <= b && d > 0
    ensures CDiv(a, d) <= CDiv(b, d)
  {
    TruncMonotone(a, b, d);
  }

  lemma TruncMonotone(a: int, b: int, d: int)
    requires a <= b && d > 0
    ensures TruncQuotient(a, d) <= TruncQuotient(b, d)
  {
    if 0 <= a {
      DivMonotone(a, b, d);
    } else if b < 0 {
      DivMonotone(-b, -a, d);
    } else {
      DivMonotone(0, -a, d);
      DivMonotone(0, b, d);
    }
  }

  /** Arduino's `map`: re-scales `x` from `[inMin, inMax]` onto
      `[outMin, outMax]` as `(x - inMin) * (outMax - outMin) / (inMax - inMin)
      + outMin` with C division. What it returns for an empty input range is
      decided inside the core library, so that case is excluded. */
  function Map(x: int, inMin: int, inMax: int, outMin: int, outMax: int): (r: int)
    requires inMin != inMax
    ensures x == inMin ==> r == outMin
    ensures x == inMax ==> r == outMax
  {
    var n, d := (x - inMin) * (outMax - outMin), inMax - inMin;
    if x == inMax then
      assert n == (outMax - outMin) * d;
      CDivExact(outMax - outMin, d);
      CDiv(n, d) + outMin
    else if x == inMin then
      assert n == 0 * d;
      CDivExact(0, d);
      CDiv(n, d) + outMin
    else
      CDiv(n, d) + outMin
  }

  /** On an increasing input range with an increasing output range, `map`
      never decreases. */
  lemma MapMonotone(x: int, y: int, inMin: int, inMax: int, outMin: int, outMax: int)
    requires x <= y && inMin < inMax && outMin <= outMax
    ensures Map(x, inMin, inMax, outMin, outMax) <= Map(y, inMin, inMax, outMin, outMax)
  {
    MulMonotone(x - inMin, y - inMin, outMax - outMin);
    CDivMonotone((x - inMin) * (outMax - outMin), (y - inMin) * (outMax - outMin), inMax - inMin);
  }

  /** Inside the input range the result stays inside the output range. */
  lemma MapWithin(x: int, inMin: int, inMax: int, outMin: int, outMax: int)
    requires inMin <= x <= inMax && inMin < inMax && outMin <= outMax
    ensures outMin <= Map(x, inMin, inMax, outMin, outMax) <= outMax
  {
    MapMonotone(inMin, x, inMin, inMax, outMin, outMax);
    MapMonotone(x, inMax, inMin, inMax, outMin, outMax);
  }

  /** Arduino's `constrain(x, lo, hi)`: `x` clamped into `[lo, hi]`. */
  function Constrain(x: int, lo: int, hi: int): (r: int)
    requires lo <= hi
    ensures lo <= r <= hi
    ensures lo <= x <= hi ==> r == x
    ensures x < lo ==> r == lo
    ensures x > hi ==> r == hi
  {
    if x < lo then lo else if x > hi then hi else x
  }

  /** Arduino's `random(lo, hi)`: a value in `[lo, hi - 1]`. The generator
      itself is not modelled: the draw is an arbitrary natural `u` supplied
      by the caller and folded into the range. */
  function Random(lo: int, hi: int, u: nat): (r: int)
    requires lo < hi
    ensures lo <= r < hi
  {
    lo + u % (hi - lo)
  }

  /** Every value of the range is the outcome of some draw, so folding the
      draw into the range loses no behaviour of `random`. */
  lemma RandomCoversRange(lo: int, hi: int, v: int)
    requires lo <= v < hi
    ensures exists u: nat :: Random(lo, hi, u) == v
  {
    assert Random(lo, hi, v - lo) == v;
  }
}

=== FILE: burst.dfy ===
/** The non-blocking burst scheduler (`handleBurst`): an armed burst shows
    one random coloured flash per elapsed random interval, counting
    `burstCount` down, and then one black frame that ends it. */
module Burst {
  import opened Arduino
  import opened Flame

  /** The globals `burstActive`, `burstCount`, `burstIntensity` and
      `lastEffectTime`. The detectors write `intensity`, but the scheduler
      never reads it. */
  datatype BurstState = BurstState(active: bool, count: int, intensity: int, lastEffectTime: U32)

  /** The state at power-up. */
  const Quiet := BurstState(false, 0, 0, 0)

  /** The part of the engine that the effect detectors and the scheduler
      read and write: the burst and the LED picture. */
  datatype Stage = Stage(burst: BurstState, leds: Light)

  /** The random draws of one `handleBurst` call: the interval
      `random(20, 80)`, the category `random(0, 10)` and one draw per colour
      channel. */
  datatype BurstDraws = BurstDraws(interval: nat, category: nat, c1: nat, c2: nat, c3: nat)

  /** `millis() - lastEffectTime` in `unsigned long` arithmetic. */
  function Elapsed(now: U32, since: U32): (e: U32)
    ensures since <= now ==> e == now - since
    ensures now < since ==> e == now - since + 0x1_0000_0000
  {
    WrapU32(now - since)
  }

  /** The clock rolling over 2^32 does not disturb the interval: `d`
      milliseconds after `since`, the elapsed time reads `d`. */
  lemma ElapsedAcrossRollover(since: U32, d: U32)
    ensures Elapsed(WrapU32(since + d), since) == d
  {
  }

  /** The freshly drawn interval of this call has passed. */
  predicate Due(b: BurstState, now: U32, d: BurstDraws) {
    Elapsed(now, b.lastEffectTime) > Random(20, 80, d.interval)
  }

  /** The four flash colour families, weighted 2:2:3:3 over `random(0, 10)`. */
  datatype Category = BlueHot | PurpleRich | RedOrange | OrangeYellow

  function CategoryOf(d: BurstDraws): Category {
    var choice := Random(0, 10, d.category);
    if choice < 2 then BlueHot
    else if choice < 4 then PurpleRich
    else if choice < 7 then RedOrange
    else OrangeYellow
  }

  /** The colour ranges each family draws from, channel by channel. */
  predicate InFamily(c: Rgb, k: Category) {
    match k
    case BlueHot => c.r < 50 && 50 <= c.g < 150 && 180 <= c.b < 255
    case PurpleRich => 100 <= c.r < 200 && c.g < 80 && 150 <= c.b < 255
    case RedOrange => c.r == 255 && 50 <= c.g < 150 && c.b < 30
    case OrangeYellow => c.r == 255 && 150 <= c.g < 255 && c.b < 100
  }

  /** The colour of one flash. */
  function FlashColour(d: BurstDraws): (c: Rgb)
    ensures InFamily(c, CategoryOf(d))
  {
    match CategoryOf(d)
    case BlueHot => Rgb(Random(0, 50, d.c1), Random(50, 150, d.c2), Random(180, 255, d.c3))
    case PurpleRich => Rgb(Random(100, 200, d.c1), Random(0, 80, d.c2), Random(150, 255, d.c3))
    case RedOrange => Rgb(255, Random(50, 150, d.c2), Random(0, 30, d.c3))
    case OrangeYellow => Rgb(255, Random(150, 255, d.c2), Random(0, 100, d.c3))
  }

  /** Every colour of every family is the flash of some draws. */
  lemma FlashColourCovers(c: Rgb, k: Category)
    requires InFamily(c, k)
    ensures exists d :: CategoryOf(d) == k && FlashColour(d) == c
  {
    var choice := match k
      case BlueHot => 0
      case PurpleRich => 2
      case RedOrange => 4
      case OrangeYellow => 7;
    var d := match k
      case BlueHot => BurstDraws(0, choice, c.r, c.g - 50, c.b - 180)
      case PurpleRich => BurstDraws(0, choice, c.r - 100, c.g, c.b - 150)
      case RedOrange => BurstDraws(0, choice, 0, c.g - 50, c.b)
      case OrangeYellow => BurstDraws(0, choice, 0, c.g - 150, c.b);
    assert CategoryOf(d) == k;
    assert FlashColour(d) == c;
  }

  /** One `handleBurst` call at time `now`. */
  function BurstStep(s: Stage, now: U32, d: BurstDraws): (r: Stage)
    ensures !s.burst.active || !Due(s.burst, now, d) ==> r == s
    ensures s.burst.active && Due(s.burst, now, d) ==>
      && r.burst.lastEffectTime == now
      && r.burst.intensity == s.burst.intensity
    ensures s.burst.active && Due(s.burst, now, d) && s.burst.count > 0 ==>
      && r.burst.active
      && r.burst.count == s.burst.count - 1
      && r.leds.Lit? && InFamily(r.leds.colour, CategoryOf(d))
    ensures s.burst.active && Due(s.burst, now, d) && s.burst.count <= 0 ==>
      && !r.burst.active
      && r.burst.count == s.burst.count
      && r.leds == Lit(Black)
  {
    if !s.burst.active || !Due(s.burst, now, d) then s
    else if s.burst.count > 0 then
      Stage(s.burst.(count := s.burst.count - 1, lastEffectTime := now), Lit(FlashColour(d)))
    else
      Stage(s.burst.(active := false, lastEffectTime := now), Lit(Black))
  }

  /** One loop pass as the scheduler sees it: the clock and the draws. */
  datatype Moment = Moment(now: U32, draws: BurstDraws)

  /** Runs the scheduler over successive loop passes. */
  function Run(s: Stage, ms: seq<Moment>): Stage
    decreases |ms|
  {
    if |ms| == 0 then s
    else Run(BurstStep(s, ms[0].now, ms[0].draws), ms[1..])
  }

  /** How many of those passes fire a step (flash or final black frame). */
  function Firings(s: Stage, ms: seq<Moment>): nat
    decreases |ms|
  {
    if |ms| == 0 then 0
    else
      var fired := if s.burst.active && Due(s.burst, ms[0].now, ms[0].draws) then 1 else 0;
      fired + Firings(BurstStep(s, ms[0].now, ms[0].draws), ms[1..])
  }

  /** Without an active burst the scheduler does nothing at all. */
  lemma {:induction false} QuietStaysQuiet(s: Stage, ms: seq<Moment>)
    requires !s.burst.active
    ensures Run(s, ms) == s
    ensures Firings(s, ms) == 0
    decreases |ms|
  {
    if |ms| > 0 {
      QuietStaysQuiet(BurstStep(s, ms[0].now, ms[0].draws), ms[1..]);
    }
  }

  /** A burst armed with `burstCount = N >= 0` stays active through its first
      `N` firing steps, each taking one off the count, and the `N + 1`-th
      firing step switches it off and leaves the LEDs black; no pass fires
      after that. */
  lemma {:induction false} BurstDrains(s: Stage, ms: seq<Moment>, n: nat)
    requires s.burst.active && s.burst.count == n
    ensures Firings(s, ms) <= n + 1
    ensures Run(s, ms).burst.active <==> Firings(s, ms) <= n
    ensures Firings(s, ms) <= n ==> Run(s, ms).burst.count == n - Firings(s, ms)
    ensures Firings(s, ms) == n + 1 ==> Run(s, ms).leds == Lit(Black)
    decreases |ms|
  {
    if |ms| > 0 {
      var s' := BurstStep(s, ms[0].now, ms[0].draws);
      if !Due(s.burst, ms[0].now, ms[0].draws) {
        BurstDrains(s', ms[1..], n);
      } else if n > 0 {
        BurstDrains(s', ms[1..], n - 1);
      } else {
        QuietStaysQuiet(s', ms[1..]);
      }
    }
  }
}

=== FILE: calibration.dfy ===
/** The guided calibration: `start` and the three capture handlers, which
    record the live pulse width as neutral, full throttle and full brake. */
module Calibration {
  import opened Arduino
  import opened Throttle

  /** `enum CalibrationStep`. */
  datatype Step = CalIdle | CalNeutral | CalThrottle | CalBrake | CalComplete

  /** A capture is awaited; the loop then shows the blue indicator and runs
      no effect. */
  predicate Capturing(s: Step) {
    s == CalNeutral || s == CalThrottle || s == CalBrake
  }

  /** The guided order of the steps; `CalComplete` falls back to `CalIdle`
      on the next loop pass. */
  function Next(s: Step): Step {
    match s
    case CalIdle => CalNeutral
    case CalNeutral => CalThrottle
    case CalThrottle => CalBrake
    case CalBrake => CalComplete
    case CalComplete => CalIdle
  }

  /** A capture handler's answer: `{"captured":true,"value":p}`, or
      `{"captured":false,...}` with HTTP 400 when called in the wrong step. */
  datatype Reply = Captured(value: U16) | WrongStep

  /** The calibration step together with the breakpoints it writes. */
  datatype CalState = CalState(step: Step, bp: Breakpoints)

  /** What a capture leaves behind: the new state, the reply, and whether the
      handler asked for the settings to be saved. */
  datatype Capture = Capture(cal: CalState, reply: Reply, save: bool)

  /** `/api/calibrate/start`: restarts the sequence from any step. */
  function Start(c: CalState): (r: CalState)
    ensures r.step == CalNeutral
    ensures r.bp == c.bp
  {
    c.(step := CalNeutral)
  }

  /** `/api/calibrate/capture/neutral`: in `CalNeutral`, the pulse becomes
      the neutral pulse and the dead zone is the pulse +-25, computed in
      `uint16_t` arithmetic. */
  function CaptureNeutral(c: CalState, pulse: U16): (o: Capture)
    ensures o.reply.Captured? <==> c.step == CalNeutral
    ensures o.reply.WrongStep? ==> o.cal == c
    ensures o.reply.Captured? ==>
      && o.reply.value == pulse
      && o.cal.step == Next(c.step)
      && o.cal.bp.neutralPulse == pulse
      && o.cal.bp.minPulse == c.bp.minPulse
      && o.cal.bp.maxPulse == c.bp.maxPulse
      && (25 <= pulse <= 0xFFFF - 25 ==>
            o.cal.bp.neutralMin == pulse - 25 && o.cal.bp.neutralMax == pulse + 25)
      && (pulse < 25 || 0xFFFF - 25 < pulse ==> o.cal.bp.neutralMin > o.cal.bp.neutralMax)
    ensures !o.save
  {
    if c.step == CalNeutral then
      var bp := c.bp.(neutralPulse := pulse,
                      neutralMin := WrapU16(pulse - 25),
                      neutralMax := WrapU16(pulse + 25));
      Capture(CalState(CalThrottle, bp), Captured(pulse), false)
    else
      Capture(c, WrongStep, false)
  }

  /** `/api/calibrate/capture/throttle`: in `CalThrottle`, the pulse becomes
      `MAX_PULSE` and nothing else changes. */
  function CaptureThrottle(c: CalState, pulse: U16): (o: Capture)
    ensures o.reply.Captured? <==> c.step == CalThrottle
    ensures o.reply.WrongStep? ==> o.cal == c
    ensures o.reply.Captured? ==>
      o.reply.value == pulse && o.cal.step == Next(c.step) && o.cal.bp == c.bp.(maxPulse := pulse)
    ensures !o.save
  {
    if c.step == CalThrottle then
      Capture(CalState(CalBrake, c.bp.(maxPulse := pulse)), Captured(pulse), false)
    else
      Capture(c, WrongStep, false)
  }

  /** `/api/calibrate/capture/brake`: in `CalBrake`, the pulse becomes
      `MIN_PULSE`, the sequence completes and the settings are saved. */
  function CaptureBrake(c: CalState, pulse: U16): (o: Capture)
    ensures o.reply.Captured? <==> c.step == CalBrake
    ensures o.reply.WrongStep? ==> o.cal == c
    ensures o.reply.Captured? ==>
      o.reply.value == pulse && o.cal.step == Next(c.step) && o.cal.bp == c.bp.(minPulse := pulse)
    ensures o.save <==> o.reply.Captured?
  {
    if c.step == CalBrake then
      Capture(CalState(CalComplete, c.bp.(minPulse := pulse)), Captured(pulse), true)
    else
      Capture(c, WrongStep, false)
  }

  /** Running the whole guided sequence with pulses `n`, `t`, `b` (from any
      step) completes it, saves once at the end, and yields the breakpoints
      `(n-25, n+25, b, t, n)`; that calibration is ordered exactly when the
      brake pulse lies below the dead zone and the throttle pulse above it. */
  lemma GuidedSequence(c: CalState, n: U16, t: U16, b: U16)
    requires 25 <= n <= 0xFFFF - 25
    ensures var o1 := CaptureNeutral(Start(c), n);
            var o2 := CaptureThrottle(o1.cal, t);
            var o3 := CaptureBrake(o2.cal, b);
            && o1.reply == Captured(n) && o2.reply == Captured(t) && o3.reply == Captured(b)
            && !o1.save && !o2.save && o3.save
            && o3.cal == CalState(CalComplete, Breakpoints(n - 25, n + 25, b, t, n))
            && (Ordered(o3.cal.bp) <==> b < n - 25 && n + 25 < t)
            && InDeadZone(n, o3.cal.bp)
  {
  }

  /** A capture outside its step changes nothing: calling the throttle or
      brake capture right after `start` fails and leaves the sequence
      waiting for neutral. */
  lemma OutOfOrderCapture(c: CalState, p: U16)
    ensures CaptureThrottle(Start(c), p) == Capture(Start(c), WrongStep, false)
    ensures CaptureBrake(Start(c), p) == Capture(Start(c), WrongStep, false)
    ensures CaptureNeutral(Start(c), p).cal.step == CalThrottle
  {
  }

  /** The dead zone wraps around for extreme neutral pulses: neutral 10
      gives `NEUTRAL_MIN = 65521` and `NEUTRAL_MAX = 35`, an empty dead zone
      that no pulse, not even the neutral one, falls into. */
  lemma NeutralWrapExample(c: CalState)
    requires c.step == CalNeutral
    ensures CaptureNeutral(c, 10).cal.bp.neutralMin == 65521
    ensures CaptureNeutral(c, 10).cal.bp.neutralMax == 35
    ensures !InDeadZone(10, CaptureNeutral(c, 10).cal.bp)
  {
  }
}

=== FILE: effects.dfy ===
/** The four effect detectors `loop` runs on every normal pass, in this
    order: RPM flicker, backfire, brake crackle, idle burble. Each reads the
    current and previous throttle percentages and the effect settings, and
    either paints the LEDs or arms a burst for the scheduler. */
module Effects {
  import opened Arduino
  import opened Flame
  import opened Throttle
  import opened Burst

  /** The effect toggles and the sensitivity thresholds (percent). Nothing
      checks the thresholds against each other. */
  datatype EffectConfig = EffectConfig(
    enableBackfire: bool,
    enableBrakeCrackle: bool,
    enableIdleBurble: bool,
    enableRpmFlicker: bool,
    backfireThrottleMin: int,
    backfireReleaseMax: int,
    brakeThrottleMin: int,
    brakeThrottleMax: int,
    rpmFlickerThreshold: int)

  /** Every effect on; release from above 30% to below 15% backfires, from
      above 20% to below -20% crackles; the flame glows above 30%. */
  const DefaultConfig := EffectConfig(true, true, true, true, 30, 15, 20, -20, 30)

  /** The heat RPM flicker paints: the throttle mapped from
      `threshold..100` onto `120..255`, a jitter from `random(-40, 40)`, the
      sum clamped to `[80, 255]`. */
  function FlickerHeat(throttle: int, threshold: int, u: nat): (h: int)
    requires IsPercent(throttle) && throttle > threshold
    ensures 80 <= h <= 255
    ensures 80 <= Map(throttle, threshold, 100, 120, 255) - 40 ==> Map(throttle, threshold, 100, 120, 255) - 40 <= h
  {
    MapWithin(throttle, threshold, 100, 120, 255);
    Constrain(Map(throttle, threshold, 100, 120, 255) + Random(-40, 40, u), 80, 255)
  }

  /** For the same jitter draw, more throttle never gives less heat. */
  lemma FlickerHeatMonotone(a: int, b: int, threshold: int, u: nat)
    requires IsPercent(a) && IsPercent(b) && threshold < a <= b
    ensures FlickerHeat(a, threshold, u) <= FlickerHeat(b, threshold, u)
  {
    MapMonotone(a, b, threshold, 100, 120, 255);
  }

  /** Before the jitter, the base heat of any flicker is within
      `[120, 255]`, so the flame is never darker than an orange minus the
      jitter. */
  lemma FlickerBaseHeat(throttle: int, threshold: int)
    requires IsPercent(throttle) && throttle > threshold
    ensures 120 <= Map(throttle, threshold, 100, 120, 255) <= 255
  {
    MapWithin(throttle, threshold, 100, 120, 255);
  }

  /** `handleRPMFlicker(throttle)`: while enabled and no burst is active,
      a throttle above the threshold paints a flame and anything else fades
      the LEDs by 40/255. */
  function RpmFlicker(cfg: EffectConfig, s: Stage, throttle: int, u: nat): (r: Stage)
    requires IsPercent(throttle)
    ensures r.burst == s.burst
    ensures !cfg.enableRpmFlicker || s.burst.active ==> r == s
    ensures cfg.enableRpmFlicker && !s.burst.active && throttle > cfg.rpmFlickerThreshold ==>
      r.leds.Lit? && FlamePalette(r.leds.colour) && r.leds.colour.r >= 80
    ensures cfg.enableRpmFlicker && !s.burst.active && throttle <= cfg.rpmFlickerThreshold ==>
      r.leds == Faded(s.leds, 40)
  {
    if !cfg.enableRpmFlicker || s.burst.active then s
    else if throttle > cfg.rpmFlickerThreshold then
      s.(leds := SetFlame(FlickerHeat(throttle, cfg.rpmFlickerThreshold, u)))
    else
      s.(leds := Faded(s.leds, 40))
  }

  /** Backfire condition: enabled, and the throttle was released from above
      `backfireThrottleMin` to below `backfireReleaseMax`. */
  predicate BackfireTriggers(cfg: EffectConfig, prev: int, cur: int) {
    cfg.enableBackfire && prev > cfg.backfireThrottleMin && cur < cfg.backfireReleaseMax
  }

  /** `detectBackfire(prev, now)`: arms a burst whose length (3..8) and
      intensity (180..255) grow with how far the previous throttle was above
      the arm threshold, both by truncating `map`. It arms even when a burst
      is already running, replacing it. */
  function DetectBackfire(cfg: EffectConfig, s: Stage, prev: int, cur: int, now: U32): (r: Stage)
    requires IsPercent(prev)
    ensures !BackfireTriggers(cfg, prev, cur) ==> r == s
    ensures BackfireTriggers(cfg, prev, cur) ==>
      && r.leds == s.leds
      && r.burst.active
      && 3 <= r.burst.count <= 8
      && 180 <= r.burst.intensity <= 255
      && r.burst.lastEffectTime == now
  {
    if BackfireTriggers(cfg, prev, cur) then
      MapWithin(prev, cfg.backfireThrottleMin, 100, 3, 8);
      MapWithin(prev, cfg.backfireThrottleMin, 100, 180, 255);
      var count := Map(prev, cfg.backfireThrottleMin, 100, 3, 8);
      var intensity := Map(prev, cfg.backfireThrottleMin, 100, 180, 255);
      s.(burst := BurstState(true, count, intensity, now))
    else
      s
  }

  /** The burst a backfire arms does not depend on the burst it replaces. */
  lemma BackfireOverwrites(cfg: EffectConfig, s: Stage, t: Stage, prev: int, cur: int, now: U32)
    requires IsPercent(prev) && BackfireTriggers(cfg, prev, cur)
    ensures DetectBackfire(cfg, s, prev, cur, now).burst == DetectBackfire(cfg, t, prev, cur, now).burst
  {
  }

  /** A release from a higher throttle never arms a shorter or weaker burst. */
  lemma BackfireGrowsWithThrottle(cfg: EffectConfig, s: Stage, a: int, b: int, cur: int, now: U32)
    requires IsPercent(a) && IsPercent(b) && a <= b && BackfireTriggers(cfg, a, cur)
    ensures DetectBackfire(cfg, s, a, cur, now).burst.count <= DetectBackfire(cfg, s, b, cur, now).burst.count
    ensures DetectBackfire(cfg, s, a, cur, now).burst.intensity <= DetectBackfire(cfg, s, b, cur, now).burst.intensity
  {
    MapMonotone(a, b, cfg.backfireThrottleMin, 100, 3, 8);
    MapMonotone(a, b, cfg.backfireThrottleMin, 100, 180, 255);
  }

  /** With the default thresholds, a release from 65% arms 5 flashes at
      intensity 217 (truncation, where rounding would give 6 and 218), and a
      release from full throttle arms 8 flashes at 255. */
  lemma BackfireTruncates(s: Stage, now: U32)
    ensures DetectBackfire(DefaultConfig, s, 65, 0, now).burst == BurstState(true, 5, 217, now)
    ensures DetectBackfire(DefaultConfig, s, 100, 0, now).burst == BurstState(true, 8, 255, now)
  {
  }

  /** Brake-crackle condition: enabled, no burst running, and the throttle
      went from above `brakeThrottleMin` to below `brakeThrottleMax`. */
  predicate CrackleTriggers(cfg: EffectConfig, s: Stage, prev: int, cur: int) {
    cfg.enableBrakeCrackle && prev > cfg.brakeThrottleMin && cur < cfg.brakeThrottleMax && !s.burst.active
  }

  /** `detectBrakeCrackle(prev, now)`: arms a burst of `random(3, 7)` flashes
      at intensity `random(160, 230)`, but never while a burst is active. */
  function DetectBrakeCrackle(cfg: EffectConfig, s: Stage, prev: int, cur: int, now: U32, uCount: nat, uIntensity: nat): (r: Stage)
    ensures s.burst.active ==> r == s
    ensures !CrackleTriggers(cfg, s, prev, cur) ==> r == s
    ensures CrackleTriggers(cfg, s, prev, cur) ==>
      && r.leds == s.leds
      && r.burst.active
      && 3 <= r.burst.count <= 6
      && 160 <= r.burst.intensity <= 229
      && r.burst.lastEffectTime == now
  {
    if CrackleTriggers(cfg, s, prev, cur) then
      s.(burst := BurstState(true, Random(3, 7, uCount), Random(160, 230, uIntensity), now))
    else
      s
  }

  /** Brake crackle runs after backfire in the same pass, so on a pass where
      backfire arms (or a burst was already running) it changes nothing. */
  lemma CrackleYieldsToBackfire(cfg: EffectConfig, s: Stage, prev: int, cur: int, now: U32, uCount: nat, uIntensity: nat)
    requires IsPercent(prev)
    requires BackfireTriggers(cfg, prev, cur) || s.burst.active
    ensures var b := DetectBackfire(cfg, s, prev, cur, now);
      DetectBrakeCrackle(cfg, b, prev, cur, now, uCount, uIntensity) == b
  {
  }

  /** Idle-burble condition: enabled, no burst running, throttle within
      +-4%, and the 4-in-1000 roll `random(0, 1000) < 4` comes up. */
  predicate BurbleFires(cfg: EffectConfig, s: Stage, throttle: int, uRoll: nat) {
    cfg.enableIdleBurble && !s.burst.active && Abs(throttle) < 5 && Random(0, 1000, uRoll) < 4
  }

  /** The roll fires for exactly 4 of every 1000 consecutive draws: those
      whose remainder modulo 1000 is below 4. */
  lemma BurbleOdds(cfg: EffectConfig, s: Stage, throttle: int, uRoll: nat)
    requires cfg.enableIdleBurble && !s.burst.active && Abs(throttle) < 5
    ensures BurbleFires(cfg, s, throttle, uRoll) <==> uRoll % 1000 < 4
    ensures BurbleFires(cfg, s, throttle, uRoll) <==> BurbleFires(cfg, s, throttle, uRoll + 1000)
  {
  }

  /** Every heat of `random(100, 160)` is the flash of some draws, once the
      other gates are open. */
  lemma BurbleCovers(cfg: EffectConfig, s: Stage, throttle: int, h: int)
    requires cfg.enableIdleBurble && !s.burst.active && Abs(throttle) < 5
    requires 100 <= h < 160
    ensures exists uRoll: nat, uHeat: nat :: IdleBurble(cfg, s, throttle, uRoll, uHeat).leds == SetFlame(h)
  {
    assert IdleBurble(cfg, s, throttle, 0, h - 100).leds == SetFlame(h);
  }

  /** `idleBurble(throttle)`: an occasional single flame flash at heat
      `random(100, 160)` while idling. */
  function IdleBurble(cfg: EffectConfig, s: Stage, throttle: int, uRoll: nat, uHeat: nat): (r: Stage)
    ensures r.burst == s.burst
    ensures !BurbleFires(cfg, s, throttle, uRoll) ==> r == s
    ensures BurbleFires(cfg, s, throttle, uRoll) ==>
      r.leds.Lit? && FlamePalette(r.leds.colour) && r.leds.colour.r >= 100 && r.leds.colour.b == 0
  {
    if BurbleFires(cfg, s, throttle, uRoll) then
      s.(leds := SetFlame(Random(100, 160, uHeat)))
    else
      s
  }
}

=== FILE: engine.dfy ===
/** The signal-to-effect engine as one explicit state record: the runtime
    globals of the firmware gathered together, one pure function per pass of
    `loop`, and one function per web endpoint that changes the engine. The
    pulse width, `millis()` and every `random` draw are inputs. */
module Engine {
  import opened Arduino
  import opened Flame
  import opened Throttle
  import Calibration
  import opened Burst
  import opened Effects

  datatype Option<T> = None | Some(value: T)

  /** The runtime state `loop` and the endpoints share. */
  datatype State = State(
    cal: Calibration.CalState,
    cfg: EffectConfig,
    burst: BurstState,
    prevPulse: U16,
    leds: Light)

  /** The globals' initial values, before any persisted settings are
      loaded. */
  const PowerUp := State(
    Calibration.CalState(Calibration.CalIdle, Defaults),
    DefaultConfig,
    Quiet,
    1500,
    Lit(Black))

  // ---------------------------------------------------------------------
  // Persistence, as an abstract record copy

  predicate ThresholdsFitInt16(cfg: EffectConfig) {
    && -0x8000 <= cfg.backfireThrottleMin < 0x8000
    && -0x8000 <= cfg.backfireReleaseMax < 0x8000
    && -0x8000 <= cfg.brakeThrottleMin < 0x8000
    && -0x8000 <= cfg.brakeThrottleMax < 0x8000
    && -0x8000 <= cfg.rpmFlickerThreshold < 0x8000
  }

  /** Effect settings whose thresholds an `int16_t` field can hold. */
  type StoredConfig = c: EffectConfig | ThresholdsFitInt16(c) witness DefaultConfig

  /** The engine's part of the persisted settings record: the breakpoints,
      the toggles, and the thresholds as stored in its `int16_t` fields. */
  datatype Settings = Settings(bp: Breakpoints, cfg: StoredConfig)

  /** `saveSettings`: copies the runtime values into the settings record;
      each threshold is narrowed from `int` to `int16_t`. */
  function Snapshot(s: State): (st: Settings)
    ensures st.bp == s.cal.bp
    ensures ThresholdsFitInt16(st.cfg)
    ensures st.cfg.enableBackfire == s.cfg.enableBackfire
    ensures st.cfg.enableBrakeCrackle == s.cfg.enableBrakeCrackle
    ensures st.cfg.enableIdleBurble == s.cfg.enableIdleBurble
    ensures st.cfg.enableRpmFlicker == s.cfg.enableRpmFlicker
    ensures ThresholdsFitInt16(s.cfg) ==> st.cfg == s.cfg
    ensures (st.cfg.backfireThrottleMin - s.cfg.backfireThrottleMin) % 0x1_0000 == 0
    ensures (st.cfg.backfireReleaseMax - s.cfg.backfireReleaseMax) % 0x1_0000 == 0
    ensures (st.cfg.brakeThrottleMin - s.cfg.brakeThrottleMin) % 0x1_0000 == 0
    ensures (st.cfg.brakeThrottleMax - s.cfg.brakeThrottleMax) % 0x1_0000 == 0
    ensures (st.cfg.rpmFlickerThreshold - s.cfg.rpmFlickerThreshold) % 0x1_0000 == 0
  {
    var c := s.cfg;
    Settings(s.cal.bp, c.(
      backfireThrottleMin := WrapI16(c.backfireThrottleMin),
      backfireReleaseMax := WrapI16(c.backfireReleaseMax),
      brakeThrottleMin := WrapI16(c.brakeThrottleMin),
      brakeThrottleMax := WrapI16(c.brakeThrottleMax),
      rpmFlickerThreshold := WrapI16(c.rpmFlickerThreshold)))
  }

  /** `loadSettings`: a record the storage layer vouched for (version and
      checksum) replaces the breakpoints, toggles and thresholds; with none,
      the state is kept. */
  function Load(s: State, stored: Option<Settings>): (r: State)
    ensures stored.None? ==> r == s
    ensures stored.Some? ==>
      r == s.(cal := s.cal.(bp := stored.value.bp), cfg := stored.value.cfg)
  {
    match stored
    case None => s
    case Some(st) => s.(cal := s.cal.(bp := st.bp), cfg := st.cfg)
  }

  /** Saving and loading back restores the calibration always, and the
      effect settings exactly when every threshold fits in `int16_t`. */
  lemma SaveLoadRoundTrip(s: State, t: State)
    ensures Load(t, Some(Snapshot(s))).cal.bp == s.cal.bp
    ensures Load(t, Some(Snapshot(s))).cfg == s.cfg <==> ThresholdsFitInt16(s.cfg)
  {
  }

  /** The state after boot: power-up values, overridden by valid persisted
      settings when there are any. */
  function Boot(stored: Option<Settings>): (r: State)
    ensures r.cal.step == Calibration.CalIdle && !r.burst.active && r.prevPulse == 1500
    ensures stored.None? ==> r.cal.bp == Defaults && r.cfg == DefaultConfig
  {
    Load(PowerUp, stored)
  }

  // ---------------------------------------------------------------------
  // The loop

  /** Every `random` draw one pass of `loop` may make. */
  datatype TickDraws = TickDraws(
    flicker: nat,
    crackleCount: nat,
    crackleIntensity: nat,
    burbleRoll: nat,
    burbleHeat: nat,
    burst: BurstDraws)

  /** The detectors and the scheduler of one normal pass, in the firmware's
      order, on the throttle of the previous and the current pulse. */
  function RunEffects(cfg: EffectConfig, st: Stage, prev: int, cur: int, now: U32, d: TickDraws): (r: Stage)
    requires IsPercent(prev) && IsPercent(cur)
    ensures !r.burst.active && !cfg.enableRpmFlicker && !cfg.enableIdleBurble ==>
      r.leds.Faded? && r.leds.amount == 50
  {
    var s1 := RpmFlicker(cfg, st, cur, d.flicker);
    var s2 := DetectBackfire(cfg, s1, prev, cur, now);
    var s3 := DetectBrakeCrackle(cfg, s2, prev, cur, now, d.crackleCount, d.crackleIntensity);
    var s4 := IdleBurble(cfg, s3, cur, d.burbleRoll, d.burbleHeat);
    var s5 := BurstStep(s4, now, d.burst);
    if !s5.burst.active && !cfg.enableRpmFlicker && !cfg.enableIdleBurble then
      s5.(leds := Faded(s5.leds, 50))
    else
      s5
  }

  /** One pass of `loop` with the pulse width `pulse` and the clock at `now`.
      While a capture is awaited the LEDs show blue and nothing else
      happens; a completed calibration shows green for one pass and returns
      to idle; otherwise the effects run and `prevPulse` takes the pulse. */
  function Tick(s: State, pulse: U16, now: U32, d: TickDraws): (r: State)
    requires s.cal.step == Calibration.CalIdle ==> Mappable(s.cal.bp)
    ensures r.cfg == s.cfg && r.cal.bp == s.cal.bp
    ensures Calibration.Capturing(s.cal.step) ==> r == s.(leds := Lit(Blue))
    ensures s.cal.step == Calibration.CalComplete ==>
      r == s.(cal := s.cal.(step := Calibration.CalIdle), leds := Lit(Green))
    ensures s.cal.step == Calibration.CalIdle ==> r.cal == s.cal && r.prevPulse == pulse
  {
    if Calibration.Capturing(s.cal.step) then
      s.(leds := Lit(Blue))
    else if s.cal.step == Calibration.CalComplete then
      s.(cal := s.cal.(step := Calibration.CalIdle), leds := Lit(Green))
    else
      var cur := Percent(pulse, s.cal.bp);
      var prev := Percent(s.prevPulse, s.cal.bp);
      var st := RunEffects(s.cfg, Stage(s.burst, s.leds), prev, cur, now, d);
      s.(burst := st.burst, leds := st.leds, prevPulse := pulse)
  }

  /** With every effect off and no burst running, a pass only fades the
      LEDs by 50/255. */
  lemma AllOffOnlyFades(cfg: EffectConfig, st: Stage, prev: int, cur: int, now: U32, d: TickDraws)
    requires IsPercent(prev) && IsPercent(cur) && !st.burst.active
    requires !cfg.enableRpmFlicker && !cfg.enableBackfire && !cfg.enableBrakeCrackle && !cfg.enableIdleBurble
    ensures RunEffects(cfg, st, prev, cur, now, d) == st.(leds := Faded(st.leds, 50))
  {
  }

  /** The effects of a pass on which backfire fires end with exactly the
      burst backfire armed, not yet flashed: its first interval starts now. */
  lemma EffectsArmBackfire(cfg: EffectConfig, st: Stage, prev: int, cur: int, now: U32, d: TickDraws)
    requires IsPercent(prev) && IsPercent(cur) && BackfireTriggers(cfg, prev, cur)
    ensures var r := RunEffects(cfg, st, prev, cur, now, d);
      && r.burst.active
      && 3 <= r.burst.count <= 8
      && 180 <= r.burst.intensity <= 255
      && r.burst.lastEffectTime == now
    ensures RunEffects(cfg, st, prev, cur, now, d).burst == DetectBackfire(cfg, st, prev, cur, now).burst
  {
    var s1 := RpmFlicker(cfg, st, cur, d.flicker);
    var s2 := DetectBackfire(cfg, s1, prev, cur, now);
    BackfireOverwrites(cfg, s1, st, prev, cur, now);
    CrackleYieldsToBackfire(cfg, s1, prev, cur, now, d.crackleCount, d.crackleIntensity);
    assert !Due(s2.burst, now, d.burst);
  }

  /** The same for a whole idle pass of `loop`. */
  lemma TickArmsBackfire(s: State, pulse: U16, now: U32, d: TickDraws)
    requires Mappable(s.cal.bp) && s.cal.step == Calibration.CalIdle
    requires BackfireTriggers(s.cfg, Percent(s.prevPulse, s.cal.bp), Percent(pulse, s.cal.bp))
    ensures var r := Tick(s, pulse, now, d);
      && r.burst.active
      && 3 <= r.burst.count <= 8
      && 180 <= r.burst.intensity <= 255
      && r.burst.lastEffectTime == now
    ensures Tick(s, pulse, now, d).burst ==
      DetectBackfire(s.cfg, Stage(s.burst, s.leds), Percent(s.prevPulse, s.cal.bp), Percent(pulse, s.cal.bp), now).burst
  {
    EffectsArmBackfire(s.cfg, Stage(s.burst, s.leds), Percent(s.prevPulse, s.cal.bp), Percent(pulse, s.cal.bp), now, d);
  }

  /** While a burst runs and backfire does not fire, no detector touches the
      burst: brake crackle cannot arm over it, and only the scheduler moves
      it on. */
  lemma ActiveBurstOnlyScheduled(cfg: EffectConfig, st: Stage, prev: int, cur: int, now: U32, d: TickDraws)
    requires IsPercent(prev) && IsPercent(cur) && st.burst.active
    requires !BackfireTriggers(cfg, prev, cur)
    ensures RunEffects(cfg, st, prev, cur, now, d).burst == BurstStep(st, now, d.burst).burst
  {
  }

  /** From a fresh boot with no stored settings, the pulses 1916 (neutral),
      2000 (full throttle) and 1900 (back in the dead zone) leave, after the
      third pass, a full backfire burst of 8 flashes at intensity 255 armed
      at that pass's time, whatever the clock and the draws were. */
  lemma ReleaseFromFullThrottleBackfires(t1: U32, t2: U32, t3: U32, d1: TickDraws, d2: TickDraws, d3: TickDraws)
    ensures var s1 := Tick(Boot(None), 1916, t1, d1);
            var s2 := Tick(s1, 2000, t2, d2);
            var s3 := Tick(s2, 1900, t3, d3);
            s3.burst == BurstState(true, 8, 255, t3)
  {
    DefaultsExamples();
    var s1 := Tick(Boot(None), 1916, t1, d1);
    assert !s1.burst.active;
    var s2 := Tick(s1, 2000, t2, d2);
    assert !s2.burst.active;
    BackfireTruncates(Stage(s2.burst, s2.leds), t3);
    TickArmsBackfire(s2, 1900, t3, d3);
  }

  // ---------------------------------------------------------------------
  // Web endpoints that change the engine

  /** What a capture endpoint leaves: the state, its reply, and the
      settings record written when it saved. */
  datatype CaptureResponse = CaptureResponse(state: State, reply: Calibration.Reply, saved: Option<Settings>)

  /** `/api/calibrate/start`. */
  function ApiStart(s: State): (r: State)
    ensures r == s.(cal := r.cal) && r.cal.step == Calibration.CalNeutral && r.cal.bp == s.cal.bp
  {
    s.(cal := Calibration.Start(s.cal))
  }

  function Respond(s: State, o: Calibration.Capture): (r: CaptureResponse)
    ensures r.state == s.(cal := o.cal) && r.reply == o.reply
    ensures o.save <==> r.saved == Some(Snapshot(r.state))
    ensures !o.save <==> r.saved.None?
  {
    var t := s.(cal := o.cal);
    CaptureResponse(t, o.reply, if o.save then Some(Snapshot(t)) else None)
  }

  /** `/api/calibrate/capture/neutral`, reading the live pulse `pulse`. */
  function ApiCaptureNeutral(s: State, pulse: U16): (r: CaptureResponse)
    ensures r.reply.Captured? <==> s.cal.step == Calibration.CalNeutral
    ensures r.reply.WrongStep? ==> r.state == s
    ensures r.reply.Captured? ==> r.state.cal == Calibration.CaptureNeutral(s.cal, pulse).cal
    ensures r.state == s.(cal := r.state.cal)
    ensures r.saved.None?
  {
    Respond(s, Calibration.CaptureNeutral(s.cal, pulse))
  }

  /** `/api/calibrate/capture/throttle`. */
  function ApiCaptureThrottle(s: State, pulse: U16): (r: CaptureResponse)
    ensures r.reply.Captured? <==> s.cal.step == Calibration.CalThrottle
    ensures r.reply.WrongStep? ==> r.state == s
    ensures r.reply.Captured? ==> r.state == s.(cal := Calibration.CalState(Calibration.CalBrake, s.cal.bp.(maxPulse := pulse)))
    ensures r.saved.None?
  {
    Respond(s, Calibration.CaptureThrottle(s.cal, pulse))
  }

  /** `/api/calibrate/capture/brake`: on success the new calibration,
      together with the current effect settings, is saved. */
  function ApiCaptureBrake(s: State, pulse: U16): (r: CaptureResponse)
    ensures r.reply.Captured? <==> s.cal.step == Calibration.CalBrake
    ensures r.reply.WrongStep? ==> r.state == s && r.saved.None?
    ensures r.reply.Captured? ==>
      && r.state.cal == Calibration.CalState(Calibration.CalComplete, s.cal.bp.(minPulse := pulse))
      && r.saved.Some? && r.saved.value.bp == r.state.cal.bp
    ensures r.reply.Captured? ==> r.saved == Some(Snapshot(r.state))
    ensures r.state == s.(cal := r.state.cal)
  {
    Respond(s, Calibration.CaptureBrake(s.cal, pulse))
  }

  /** A full calibration followed by the loop: after the brake capture the
      next pass shows green and returns to idle with the new breakpoints
      still in force, and the pass after that runs the effects again. */
  lemma CalibrationThenLoop(s: State, n: U16, t: U16, b: U16, p: U16, q: U16, now: U32, now2: U32, d: TickDraws, d2: TickDraws)
    requires 25 <= n <= 0xFFFF - 25 && b < n - 25 && n + 25 < t
    ensures var c := ApiCaptureBrake(ApiCaptureThrottle(ApiCaptureNeutral(ApiStart(s), n).state, t).state, b).state;
      && c.cal.bp == Breakpoints(n - 25, n + 25, b, t, n)
      && Ordered(c.cal.bp)
      && Tick(c, p, now, d).cal.step == Calibration.CalIdle
      && Tick(c, p, now, d).leds == Lit(Green)
      && Tick(c, p, now, d).prevPulse == s.prevPulse
      && Tick(Tick(c, p, now, d), q, now2, d2).prevPulse == q
  {
    Calibration.GuidedSequence(s.cal, n, t, b);
  }

  /** `prevPulse` is frozen while calibrating, so the first idle pass after
      a new calibration compares the pulse from before it with the new
      breakpoints: a 1700 pulse, which read as -49% braking under the
      factory breakpoints, is full throttle under the calibration (neutral
      1500, throttle 1700, brake 1000), and returning to 1500 arms a full
      backfire. */
  lemma StalePulseAfterCalibration(p: U16, now: U32, now2: U32, d: TickDraws, d2: TickDraws)
    ensures var s := Boot(None).(prevPulse := 1700);
      var c := ApiCaptureBrake(ApiCaptureThrottle(ApiCaptureNeutral(ApiStart(s), 1500).state, 1700).state, 1000).state;
      var g := Tick(c, p, now, d);
      && Percent(1700, Defaults) == -49
      && g.prevPulse == 1700
      && Percent(g.prevPulse, g.cal.bp) == 100
      && Tick(g, 1500, now2, d2).burst == BurstState(true, 8, 255, now2)
  {
    var s := Boot(None).(prevPulse := 1700);
    Calibration.GuidedSequence(s.cal, 1500, 1700, 1000);
    var c := ApiCaptureBrake(ApiCaptureThrottle(ApiCaptureNeutral(ApiStart(s), 1500).state, 1700).state, 1000).state;
    var bp := Breakpoints(1475, 1525, 1000, 1700, 1500);
    assert c.cal.bp == bp && c.cfg == DefaultConfig;
    var g := Tick(c, p, now, d);
    PercentEndpoints(1700, bp);
    assert Percent(1500, bp) == 0;
    BackfireTruncates(Stage(g.burst, g.leds), now2);
    TickArmsBackfire(g, 1500, now2, d2);
  }

  /** Capturing neutral at 1975 on the default breakpoints puts
      `NEUTRAL_MAX` on `MAX_PULSE`, an empty throttle range for `map`; the
      passes that await the next capture still only show blue. */
  lemma CaptureOntoMaxPulseStaysBlue(p: U16, now: U32, d: TickDraws)
    ensures var c := ApiCaptureNeutral(ApiStart(Boot(None)), 1975).state;
      && c.cal.step == Calibration.CalThrottle
      && !Mappable(c.cal.bp)
      && Tick(c, p, now, d) == c.(leds := Lit(Blue))
  {
  }

  /** `/api/test/backfire`: a five-flash burst at intensity 240, replacing
      any running burst. */
  function ApiTestBackfire(s: State, now: U32): (r: State)
    ensures r == s.(burst := r.burst)
    ensures r.burst.active && r.burst.count == 5 && r.burst.intensity == 240 && r.burst.lastEffectTime == now
  {
    s.(burst := BurstState(true, 5, 240, now))
  }

  /** `/api/test/crackle`: a six-flash burst at intensity 200, replacing any
      running burst. */
  function ApiTestCrackle(s: State, now: U32): (r: State)
    ensures r == s.(burst := r.burst)
    ensures r.burst.active && r.burst.count == 6 && r.burst.intensity == 200 && r.burst.lastEffectTime == now
  {
    s.(burst := BurstState(true, 6, 200, now))
  }

  /** The test backfire is over, with the LEDs black, after exactly six
      firing steps of the scheduler, and still running before that. */
  lemma TestBackfireDrains(s: State, now: U32, ms: seq<Moment>)
    ensures var st := Stage(ApiTestBackfire(s, now).burst, s.leds);
      && Firings(st, ms) <= 6
      && (Run(st, ms).burst.active <==> Firings(st, ms) < 6)
      && (Firings(st, ms) == 6 ==> Run(st, ms).leds == Lit(Black))
  {
    BurstDrains(Stage(ApiTestBackfire(s, now).burst, s.leds), ms, 5);
  }

  /** The effects that can be switched from the dashboard. */
  datatype Effect = BackfireEffect | BrakeEffect | IdleEffect | RpmEffect

  function Enabled(cfg: EffectConfig, e: Effect): bool {
    match e
    case BackfireEffect => cfg.enableBackfire
    case BrakeEffect => cfg.enableBrakeCrackle
    case IdleEffect => cfg.enableIdleBurble
    case RpmEffect => cfg.enableRpmFlicker
  }

  /** What a settings endpoint leaves: the state and the record saved. */
  datatype SettingsResponse = SettingsResponse(state: State, saved: Option<Settings>)

  /** `/api/effects/<effect>/<on|off>`: switches one effect and saves. */
  function ApiSetEffect(s: State, e: Effect, on: bool): (r: SettingsResponse)
    ensures r.state == s.(cfg := r.state.cfg)
    ensures Enabled(r.state.cfg, e) == on
    ensures forall f :: f != e ==> Enabled(r.state.cfg, f) == Enabled(s.cfg, f)
    ensures r.state.cfg.backfireThrottleMin == s.cfg.backfireThrottleMin
    ensures r.state.cfg.backfireReleaseMax == s.cfg.backfireReleaseMax
    ensures r.state.cfg.brakeThrottleMin == s.cfg.brakeThrottleMin
    ensures r.state.cfg.brakeThrottleMax == s.cfg.brakeThrottleMax
    ensures r.state.cfg.rpmFlickerThreshold == s.cfg.rpmFlickerThreshold
    ensures r.saved == Some(Snapshot(r.state))
  {
    var c := match e
      case BackfireEffect => s.cfg.(enableBackfire := on)
      case BrakeEffect => s.cfg.(enableBrakeCrackle := on)
      case IdleEffect => s.cfg.(enableIdleBurble := on)
      case RpmEffect => s.cfg.(enableRpmFlicker := on);
    var t := s.(cfg := c);
    SettingsResponse(t, Some(Snapshot(t)))
  }

  /** The `param` and `value` query arguments of `/api/threshold`, when both
      are present (`value` already converted by `toInt`). */
  datatype ThresholdArgs = ThresholdArgs(param: string, value: int)

  /** `/api/threshold`: sets the backfire arm threshold (`backfireMin`), the
      backfire release threshold (`backfireMax`) or the RPM flicker threshold
      (`rpmThreshold`), and saves whenever both arguments are present, even
      for an unknown name. The brake-crackle thresholds cannot be set here. */
  function ApiThreshold(s: State, args: Option<ThresholdArgs>): (r: SettingsResponse)
    ensures args.None? ==> r == SettingsResponse(s, None)
    ensures args.Some? ==> r.saved == Some(Snapshot(r.state))
    ensures r.state == s.(cfg := r.state.cfg)
    ensures r.state.cfg.brakeThrottleMin == s.cfg.brakeThrottleMin
    ensures r.state.cfg.brakeThrottleMax == s.cfg.brakeThrottleMax
    ensures forall f :: Enabled(r.state.cfg, f) == Enabled(s.cfg, f)
    ensures args.Some? && args.value.param == "backfireMin" ==> r.state.cfg.backfireThrottleMin == args.value.value
    ensures args.Some? && args.value.param == "backfireMax" ==> r.state.cfg.backfireReleaseMax == args.value.value
    ensures args.Some? && args.value.param == "rpmThreshold" ==> r.state.cfg.rpmFlickerThreshold == args.value.value
    ensures args.Some? && args.value.param !in {"backfireMin", "backfireMax", "rpmThreshold"} ==> r.state == s
  {
    match args
    case None => SettingsResponse(s, None)
    case Some(a) =>
      var c :=
        if a.param == "backfireMin" then s.cfg.(backfireThrottleMin := a.value)
        else if a.param == "backfireMax" then s.cfg.(backfireReleaseMax := a.value)
        else if a.param == "rpmThreshold" then s.cfg.(rpmFlickerThreshold := a.value)
        else s.cfg;
      var t := s.(cfg := c);
      SettingsResponse(t, Some(Snapshot(t)))
  }
}

=== FILE: flame.dfy ===
/** The heat-to-colour flame model (`setFlame`) and the picture the LED
    strip shows. */
module Flame {
  import opened Arduino

  /** A FastLED `CRGB` value. */
  datatype Rgb = Rgb(r: Byte, g: Byte, b: Byte)

  /** FastLED's named colours used by the engine (`CRGB::Black`,
      `CRGB::Blue`, `CRGB::Green` = 0x008000). */
  const Black := Rgb(0, 0, 0)
  const Blue := Rgb(0, 0, 255)
  const Green := Rgb(0, 128, 0)

  /** What the strip shows: a colour the engine wrote, or an earlier picture
      dimmed by FastLED's `fadeToBlackBy(leds, n, amount)`. The per-channel
      scaling FastLED applies is not part of this model, so a fade is kept
      as a symbolic step on the picture. */
  datatype Light = Lit(colour: Rgb) | Faded(before: Light, amount: Byte)

  /** Red never weaker than green, green never weaker than blue: the colour
      stays on the red-orange-yellow-white flame axis. */
  predicate FlamePalette(c: Rgb) {
    c.r >= c.g >= c.b
  }

  /** The colour `setFlame(heat)` paints. Heat is clamped to [0, 255]; below
      120 it is a deep red `(h, h/4, 0)`, from 120 an orange `(255, h, 0)`,
      from 200 a yellow-white tip `(255, 255, h - 200)`. */
  function HeatColour(heat: int): (c: Rgb)
    ensures FlamePalette(c)
    ensures c.r == 255 <==> heat >= 120
    ensures c.g == 255 <==> heat >= 200
    ensures c.b > 0 <==> heat > 200
    ensures heat <= 0 ==> c == Black
  {
    var h := Constrain(heat, 0, 255);
    if h < 120 then Rgb(h, h / 4, 0)
    else if h < 200 then Rgb(255, h, 0)
    else Rgb(255, 255, h - 200)
  }

  /** `setFlame(heat)`: every LED shows the heat colour. */
  function SetFlame(heat: int): (l: Light)
    ensures l.Lit? && FlamePalette(l.colour)
  {
    Lit(HeatColour(heat))
  }

  /** No channel is darker at a higher heat. */
  lemma HeatColourMonotone(a: int, b: int)
    requires a <= b
    ensures HeatColour(a).r <= HeatColour(b).r
    ensures HeatColour(a).g <= HeatColour(b).g
    ensures HeatColour(a).b <= HeatColour(b).b
  {
    var ha, hb := Constrain(a, 0, 255), Constrain(b, 0, 255);
    assert ha <= hb;
    if hb < 120 {
      assert ha / 4 <= hb / 4;
    }
  }

  /** Distinct heats in [0, 255] give distinct colours. */
  lemma HeatColourInjective(a: int, b: int)
    requires 0 <= a <= 255 && 0 <= b <= 255
    requires HeatColour(a) == HeatColour(b)
    ensures a == b
  {
  }

  /** Heat outside [0, 255] paints the colour of the nearest bound. */
  lemma HeatColourClamps(heat: int)
    ensures heat < 0 ==> HeatColour(heat) == HeatColour(0)
    ensures heat > 255 ==> HeatColour(heat) == HeatColour(255)
  {
  }

  /** The branch boundaries: 120 already belongs to the orange branch and
      200 to the yellow-white one. */
  lemma HeatColourBoundaries()
    ensures HeatColour(0) == Rgb(0, 0, 0)
    ensures HeatColour(119) == Rgb(119, 29, 0)
    ensures HeatColour(120) == Rgb(255, 120, 0)
    ensures HeatColour(199) == Rgb(255, 199, 0)
    ensures HeatColour(200) == Rgb(255, 255, 0)
    ensures HeatColour(255) == Rgb(255, 255, 55)
  {
  }
}

=== FILE: throttle.dfy ===
/** The throttle mapper: a pulse width and the five calibration breakpoints
    give a signed throttle percentage. `loop` applies it to the current and
    the previous pulse, and the status endpoint applies it once more. */
module Throttle {
  import opened Arduino

  /** The runtime calibration globals `NEUTRAL_MIN`, `NEUTRAL_MAX`,
      `MIN_PULSE`, `MAX_PULSE` and `NEUTRAL_PULSE`, all `uint16_t`. */
  datatype Breakpoints = Breakpoints(
    neutralMin: U16,
    neutralMax: U16,
    minPulse: U16,
    maxPulse: U16,
    neutralPulse: U16)

  /** The values the globals start with when nothing valid was persisted. */
  const Defaults := Breakpoints(1890, 1930, 1496, 2000, 1916)

  /** Neither branch of the mapping hands `map` an empty input range (that
      case is decided inside the Arduino core library). */
  predicate Mappable(bp: Breakpoints) {
    bp.maxPulse != bp.neutralMax && bp.minPulse != bp.neutralMin
  }

  /** The ordering a sensible calibration has. Nothing in the firmware
      checks it. */
  predicate Ordered(bp: Breakpoints) {
    bp.minPulse < bp.neutralMin <= bp.neutralMax < bp.maxPulse
  }

  predicate InDeadZone(pulse: int, bp: Breakpoints) {
    bp.neutralMin <= pulse <= bp.neutralMax
  }

  predicate IsPercent(t: int) {
    -100 <= t <= 100
  }

  /** The raw `map` result before `constrain`: 0 in the dead zone, the
      forward interpolation `NEUTRAL_MAX..MAX_PULSE -> 0..100` above it and the
      brake interpolation `MIN_PULSE..NEUTRAL_MIN -> -100..0` below it. */
  function RawPercent(pulse: U16, bp: Breakpoints): int
    requires Mappable(bp)
  {
    if InDeadZone(pulse, bp) then 0
    else if pulse > bp.neutralMax then Map(pulse, bp.neutralMax, bp.maxPulse, 0, 100)
    else Map(pulse, bp.minPulse, bp.neutralMin, -100, 0)
  }

  /** The throttle percentage `loop` computes for a pulse width. */
  function Percent(pulse: U16, bp: Breakpoints): (t: int)
    requires Mappable(bp)
    ensures IsPercent(t)
    ensures InDeadZone(pulse, bp) ==> t == 0
  {
    Constrain(RawPercent(pulse, bp), -100, 100)
  }

  /** Above the dead zone of an ordered calibration the raw value is never
      negative. */
  lemma ForwardNonNegative(pulse: U16, bp: Breakpoints)
    requires Ordered(bp) && pulse > bp.neutralMax
    ensures RawPercent(pulse, bp) >= 0
  {
    MapMonotone(bp.neutralMax, pulse, bp.neutralMax, bp.maxPulse, 0, 100);
  }

  /** Below the dead zone of an ordered calibration the raw value is at most
      -1: truncation toward zero of the brake quotient rounds it toward -100,
      so no pulse under `NEUTRAL_MIN` reads as 0. */
  lemma BrakeNegative(pulse: U16, bp: Breakpoints)
    requires Ordered(bp) && pulse < bp.neutralMin
    ensures RawPercent(pulse, bp) <= -1
  {
    var d := bp.neutralMin - bp.minPulse;
    var n := (pulse - bp.minPulse) * 100;
    assert n == 100 * (pulse - bp.neutralMin) + 100 * d;
    assert n <= 100 * d - 1;
    CDivMonotone(n, 100 * d - 1, d);
    assert 99 * d <= 100 * d - 1 < 99 * d + d;
    EuclidUnique(100 * d - 1, d, 99);
    assert CDiv(100 * d - 1, d) == TruncQuotient(100 * d - 1, d);
  }

  /** Under an ordered calibration the throttle is non-decreasing in the
      pulse width across the whole `uint16_t` range. */
  lemma PercentMonotone(p: U16, q: U16, bp: Breakpoints)
    requires Ordered(bp) && p <= q
    ensures Percent(p, bp) <= Percent(q, bp)
  {
    if q < bp.neutralMin {
      MapMonotone(p, q, bp.minPulse, bp.neutralMin, -100, 0);
    } else if p > bp.neutralMax {
      MapMonotone(p, q, bp.neutralMax, bp.maxPulse, 0, 100);
    } else {
      if p < bp.neutralMin {
        BrakeNegative(p, bp);
      }
      if q > bp.neutralMax {
        ForwardNonNegative(q, bp);
      }
    }
  }

  /** The calibrated extremes map to the ends of the scale and everything
      beyond them is clamped there. */
  lemma PercentEndpoints(pulse: U16, bp: Breakpoints)
    requires Ordered(bp)
    ensures Percent(bp.maxPulse, bp) == 100
    ensures Percent(bp.minPulse, bp) == -100
    ensures pulse >= bp.maxPulse ==> Percent(pulse, bp) == 100
    ensures pulse <= bp.minPulse ==> Percent(pulse, bp) == -100
  {
    assert RawPercent(bp.maxPulse, bp) == 100;
    assert RawPercent(bp.minPulse, bp) == -100;
    if pulse >= bp.maxPulse {
      MapMonotone(bp.maxPulse, pulse, bp.neutralMax, bp.maxPulse, 0, 100);
    }
    if pulse <= bp.minPulse {
      MapMonotone(pulse, bp.minPulse, bp.minPulse, bp.neutralMin, -100, 0);
    }
  }

  /** Under an ordered calibration the throttle reads as braking exactly
      when the pulse lies below the dead zone. */
  lemma PercentNegativeIffBelowDeadZone(pulse: U16, bp: Breakpoints)
    requires Ordered(bp)
    ensures Percent(pulse, bp) < 0 <==> pulse < bp.neutralMin
  {
    if pulse < bp.neutralMin {
      BrakeNegative(pulse, bp);
    } else if pulse > bp.neutralMax {
      ForwardNonNegative(pulse, bp);
    }
  }

  /** The factory calibration: neutral reads 0, full throttle 100, and a
      pulse of 1400 below full brake is clamped to -100 rather than
      extrapolated. */
  lemma DefaultsExamples()
    ensures Ordered(Defaults)
    ensures Percent(1916, Defaults) == 0
    ensures Percent(2000, Defaults) == 100
    ensures Percent(1496, Defaults) == -100
    ensures Percent(1400, Defaults) == -100
    ensures Percent(1500, Defaults) == -99
    ensures Percent(1900, Defaults) == 0
  {
    assert RawPercent(1400, Defaults) == -124;
    assert RawPercent(1500, Defaults) == -99;
  }
}
